=== FILE: README.md ===
# NacosX service lifecycle — a Dafny model

NacosX registers a network service instance with a Nacos registry and keeps it
there: `NacosService` registers with retries, runs a background heartbeat
thread that counts consecutive failures and re-registers ("self-healing") once
the count reaches a threshold, and deregisters on `stop`. The `nacos_registry`
decorator checks its configuration, parses `service_addr` (`ip:port`) and runs
the decorated function inside the service's `with` block.

This project models that decision logic as pure functions over immutable
records, driven by explicit outcome scripts instead of a live registry client:

- `Registry` (registry.dfy): the client operations (`add`, `remove`,
  `heartbeat`), the log of calls that reached the client, the lazily built
  client handle and the local `registered` cache; `_init_client`,
  `_register_once`, `_remove_once`. A call on a client that was never built
  fails without reaching the registry, as the attribute error it raises in the
  source is caught by the surrounding `try`.
- `Retry` (retry.dfy): `register_with_retry` as a recursive function over a
  script of add outcomes, reporting success, attempts, sleeps and the state it
  leaves.
- `Heartbeat` (heartbeat.dfy): one pass of `_heartbeat_loop` as a step over
  `(session, fail_count, exited)`, driven by a `Round` that says how the
  interval wait and the retry wait ended and what the client answered.
  `Streak` is an independent reference definition of `fail_count` over the call
  log.
- `Lifecycle` (lifecycle.dfy): the controller record, `start`, `stop`,
  `__enter__`/`__exit__`, the live heartbeat thread as an explicit `Tick`
  step, and the controller invariant `Valid`.
- `Address` (address.dfy): `rsplit(':', 1)` and a decimal port reader with its
  inverse.
- `Decorator` (decorator.dfy): the wrapper's checks, its decision (run plainly,
  raise, run without registering, or register) and one whole call of the
  wrapped function.
- `Results` (results.dfy): `Option` and `Result`.

A script of client answers is a `seq<bool>` read in order; a script that runs
out answers with a failure.

Three behaviours of the code are worth knowing, and the model keeps them:

- `stop` calls `_remove_once` every time, without consulting `registered`
  (core.py:248-249), so two `stop`s issue two removes
  (`Lifecycle.StopTwiceRemovesTwice`).
- The self-healing remove calls the client directly rather than through
  `_remove_once` (core.py:202-206). It never clears `registered`, so the cache
  can go stale (`Heartbeat.HealLeavesCacheStale`). Nothing in the source reads
  `registered`, so this has no visible effect.
- A second `start` while the heartbeat thread lives spawns a second thread and
  overwrites the handle (core.py:233-236), leaving the first one running
  (`Lifecycle.RestartLeavesStray`).

## Model

| member | source | states |
|---|---|---|
| Registry.InitClient | src/nacosx/core.py:110-122 | the client exists afterwards; an existing client is reused unchanged; at most one client is ever built |
| Registry.InitClientIdempotent | src/nacosx/core.py:110-122 | building the client twice is the same as building it once |
| Registry.Request | src/nacosx/core.py:182-187 | one client call inside a `try`: it reaches the registry iff the handle exists and succeeds iff it exists and the registry answered success; `registered` and the handle are untouched |
| Registry.RegisterOnce | src/nacosx/core.py:124-141 | exactly one add call when a client exists; success iff the client answered success; `registered` becomes true only on success and is otherwise unchanged; the cache stays in step with the log |
| Registry.RemoveOnce | src/nacosx/core.py:158-169 | exactly one remove call when a client exists; only a successful remove clears `registered`; a failure is reported, not raised |
| Retry.Attempts | src/nacosx/core.py:149-156 | from attempt k+1 on: stops at the first successful answer, otherwise uses every remaining attempt; one sleep between consecutive attempts; appends exactly one add call per attempt with that attempt's answer |
| Retry.RegisterWithRetry | src/nacosx/core.py:143-156 | succeeds iff one of the first `retries` answers is a success; then exactly k attempts for first success at attempt k; otherwise exactly `retries` attempts (0 when `retries` <= 0); attempts-1 sleeps; `registered` becomes old value or success |
| Retry.AddLogEntries | src/nacosx/core.py:149-153 | attempt j+1 of a run logs exactly one add carrying the (k+j)-th answer of the script |
| Retry.MembershipAfterLog | src/nacosx/core.py:149-153 | after a run of add attempts the log implies membership iff one attempt succeeded or it already did |
| Retry.RegisterKeepsInSync | src/nacosx/core.py:143-156 | `registered` stays equal to the membership the call log implies across `register_with_retry` |
| Retry.FirstSuccessDecides | src/nacosx/core.py:149-153 | first success at attempt k+1 gives success after exactly k+1 attempts and k sleeps |
| Retry.NoRetriesNoAttempt | src/nacosx/core.py:149-156 | `retries` <= 0 makes no attempt, no call, and reports failure |
| Heartbeat.Iterate | src/nacosx/core.py:171-217 | an exited loop stays as it is; the loop returns iff the signal is seen at the interval wait, or at the retry wait after a failed heartbeat; a signal at the interval wait ends it with no call, one at the retry wait right after the one failed heartbeat with the counter incremented; otherwise an ephemeral instance with a client first logs one heartbeat with the registry's answer; a successful heartbeat resets the counter to 0 and makes no other call; a failed one below the threshold with an elapsed retry wait increments the counter and makes no other call; a permanent instance makes no call and keeps its counter; the loop never clears `registered` and only appends to the log |
| Heartbeat.Run | src/nacosx/core.py:173-217 | over any sequence of iterations the loop never clears `registered` and never rewrites earlier calls |
| Heartbeat.StreakAfterLog | src/nacosx/core.py:208-212 | a run of add attempts resets the failure streak iff one attempt succeeded, else leaves it as it was |
| Heartbeat.IterateKeepsStreak | src/nacosx/core.py:182-214 | one iteration keeps `fail_count` equal to the number of failed heartbeats since the last successful heartbeat or successful re-registration |
| Heartbeat.HealKeepsStreak | src/nacosx/core.py:200-214 | the self-healing calls reset the streak iff re-registration succeeds, else leave it as it was |
| Heartbeat.RunKeepsStreak | src/nacosx/core.py:173-217 | over any sequence of iterations `fail_count` stays the length of the current run of failed heartbeats |
| Heartbeat.HealIff | src/nacosx/core.py:188-209 | a self-healing remove is issued iff the heartbeat failed, the retry wait timed out and the incremented counter reached `heartbeat_max_failures` |
| Heartbeat.HealOutcome | src/nacosx/core.py:209-214 | successful re-registration resets the counter to 0; a failed one leaves it at count+1 >= threshold, so the next failed heartbeat with an elapsed retry wait heals again |
| Heartbeat.PermanentNeverBeats | src/nacosx/core.py:179-180 | for a non-ephemeral instance any number of iterations issue no client call and leave the counter alone |
| Heartbeat.SignalEndsRun | src/nacosx/core.py:174-195 | once the stop signal is seen, at an interval wait or at the retry wait after a failed heartbeat, the loop has returned and no later round is consumed |
| Heartbeat.HealLeavesCacheStale | src/nacosx/core.py:200-214 | a successful self-healing remove followed by failed re-registration leaves `registered` true while the log implies the instance is gone |
| Heartbeat.TwoFailuresHealOnce | src/nacosx/core.py:188-209 | with threshold 2, two failed heartbeats lead to exactly one remove, right after the second heartbeat, followed only by add attempts |
| Heartbeat.IterateKeepsEverAdded | src/nacosx/core.py:200-212 | after an iteration, `registered` still implies some add in the log succeeded |
| Lifecycle.Start | src/nacosx/core.py:219-237 | a heartbeat thread (counter 0, signal cleared) is spawned iff registration succeeded and the instance is ephemeral; on failure the threads, the signal and `registered` are as before; only add calls, at most `retries` of them |
| Lifecycle.Stop | src/nacosx/core.py:239-251 | a live thread is signalled and joined; then exactly one remove attempt whatever `registered` says; only a successful remove clears `registered` |
| Lifecycle.Tick | src/nacosx/core.py:171-217 | a heartbeat iteration of the live thread keeps the thread alive, never clears `registered`, makes no call for a permanent instance, and does nothing without a live thread; a live ephemeral thread's iteration first logs one heartbeat with the registry's answer, a success resetting the counter and a failure below the threshold incrementing it, with no other call |
| Lifecycle.Ticks | src/nacosx/core.py:171-217 | any number of iterations keep the client, `registered` and earlier calls, and make no call for a permanent instance; without a live thread nothing happens; a live ephemeral thread's first iteration logs its heartbeat right after the earlier calls |
| Lifecycle.Enter | src/nacosx/core.py:298-302 | handlers are installed and `start` has run: a thread lives iff one lived or registration succeeded for an ephemeral instance |
| Lifecycle.Exit | src/nacosx/core.py:304-309 | handlers are restored, no thread is left alive, and exactly one remove attempt is the last call |
| Lifecycle.EnterNew | src/nacosx/core.py:219-237 | `__enter__` on a new service builds the client, logs only adds, and leaves a heartbeat thread alive iff the instance is ephemeral and registration succeeded |
| Lifecycle.QuietWithoutThread | src/nacosx/core.py:233-251 | with no live heartbeat thread, the iterations and `stop` add no heartbeat to a log that held none |
| Lifecycle.FirstBeatLogged | src/nacosx/core.py:182-184 | with a live thread of an ephemeral instance, the first iteration's heartbeat stays in the log through the later iterations and `stop` |
| Lifecycle.Scoped | src/nacosx/core.py:298-309 | a `with` block on a new service ends with handlers restored, no thread alive or stray, the teardown remove as the last call and, with at least one retry, an add as the first call; no heartbeat is sent unless registration succeeded for an ephemeral instance, and when it did the thread's first heartbeat is in the log |
| Lifecycle.EnterKeepsValid | src/nacosx/core.py:298-302 | `__enter__` keeps the controller invariant |
| Lifecycle.ExitKeepsValid | src/nacosx/core.py:304-309 | `__exit__` keeps the controller invariant |
| Lifecycle.NewIsValid | src/nacosx/core.py:87-93 | a newly constructed service satisfies the controller invariant |
| Lifecycle.StartKeepsValid | src/nacosx/core.py:219-237 | `start` keeps the invariant: client built at most once, `registered` backed by a successful add, a live thread is ephemeral with a clear signal and counter equal to the streak |
| Lifecycle.StopKeepsValid | src/nacosx/core.py:239-251 | `stop` keeps the controller invariant |
| Lifecycle.TickKeepsValid | src/nacosx/core.py:171-217 | one heartbeat iteration keeps the controller invariant |
| Lifecycle.TicksKeepValid | src/nacosx/core.py:171-217 | any number of heartbeat iterations keep the controller invariant |
| Lifecycle.StartAllFail | src/nacosx/core.py:226-230 | with the default 3 retries and all answers failing, exactly three failed adds, not registered, no thread |
| Lifecycle.StopTwiceRemovesTwice | src/nacosx/core.py:239-251 | two stops in a row issue two removes |
| Lifecycle.StopBeforeStart | src/nacosx/core.py:158-169 | `stop` on a never-started service reaches no registry and leaves it as constructed |
| Lifecycle.RestartLeavesStray | src/nacosx/core.py:233-236 | a successful second `start` with a live thread spawns a new thread and leaves one more running without a handle |
| Address.ParsePort | src/nacosx/core.py:398-399 | a port is read iff the text is a non-empty run of decimal digits |
| Address.LeadingZeroIgnored | src/nacosx/core.py:399 | like `int()`, reading a numeral ignores a leading zero, so `08080` reads as 8080 |
| Address.Numeral | src/nacosx/core.py:399 | the canonical numeral of a number is a numeral with no leading zero |
| Address.NumeralRoundTrip | src/nacosx/core.py:399 | reading the numeral of n gives n |
| Address.CanonicalRoundTrip | src/nacosx/core.py:399 | a numeral without leading zeros is the numeral of its value |
| Address.LastColon | src/nacosx/core.py:397 | finds a colon iff there is one, and no colon follows it |
| Address.SplitLast | src/nacosx/core.py:389-397 | splits iff the text holds a colon; the parts rejoin to the text and the right part holds no colon |
| Address.SplitJoin | src/nacosx/core.py:397 | joining host and a colon-free tail at a colon and splitting again gives back both, even when the host holds colons |
| Decorator.Validate | src/nacosx/core.py:372-406 | each error iff every earlier check passed and its own check fails, in the order nacos_addr, service_name, colon, port; on success ip is the text before the last colon and port the value after it |
| Decorator.ValidateRoundTrip | src/nacosx/core.py:389-400 | any host joined to a port's numeral validates to that host and port |
| Decorator.ValidateAcceptsExample | src/nacosx/core.py:389-400 | `10.0.0.1:8080` gives ip `10.0.0.1` and port 8080 |
| Decorator.ValidateRejectsExample | src/nacosx/core.py:389-393 | `badaddr`, which has no colon, is refused as malformed |
| Decorator.Admit | src/nacosx/core.py:369-414 | disabled runs with no check; a failed check raises or, in permissive mode, runs without a service; registration happens iff the checks pass, at exactly the ip and port the checks parsed |
| Decorator.Invoke | src/nacosx/core.py:368-442 | the work runs iff the configuration is not rejected; no registry call unless admitted; when admitted the last call is the one teardown remove and, with at least one retry, the first is an add; no heartbeat unless admitted and registration succeeded for an ephemeral instance, and then the heartbeat thread's first beat is in the log; an error in the work propagates unless permissive mode, which returns None |

## Left out

- Threads, the `RLock`, the `Event` and `join`: the model is sequential, so client calls are serialised by construction. `stop` is modelled as signalling a thread parked at a wait point, which then returns without another call. The source's `join` timeout, and a self-healing run overlapping `stop`, are not modelled.
- Lifecycle.Tick: the heartbeat thread's waits always time out here, because the signal is only set by `stop`. A signal arriving at either wait point is modelled by `Heartbeat.Iterate` on its own.
- Threads whose handle a second `start` overwrote are only counted (`strays`). Their heartbeats are not modelled.
- Signal handling (`install_signal_handlers`, `restore_signal_handlers`, core.py:253-296): it changes process-wide state and exits the process. Only the installed/restored flag and the stop-then-restore order of `__exit__` are modelled.
- The Nacos client library: every call is answered by a script. The instance identity (service name, ip, port, metadata) passed with each call is not carried.
- `_init_client`'s import-failure branch (core.py:114-115) and a raising `nacos.NacosClient(...)` constructor (core.py:116-121): the client library is abstracted and building the client is assumed to succeed.
- Lifecycle.Scoped: assumes the client is built; when the constructor raises, `__enter__` raises, the `with` body and `__exit__` never run, and there is no final remove.
- Decorator.Invoke: assumes the client is built, as for `Lifecycle.Scoped`. A raising constructor makes `__enter__` raise inside the `try` at core.py:428; the work never runs, and the error propagates when `raise_on_register_fail` is true, otherwise the wrapper returns None.
- The self-healing `except` at core.py:215-217: with the client present and a non-negative `register_retry_delay`, `register_with_retry` cannot raise there (`time.sleep` raises `ValueError` only for a negative delay).
- Retry.RegisterWithRetry: assumes a non-negative `register_retry_delay`. With a negative delay, `retries` >= 2 and a failed first add, `time.sleep` at core.py:155 raises `ValueError` after one attempt; `Lifecycle.Start` and `__enter__` then raise, and `Decorator.Invoke` neither registers nor runs the work: it propagates the error when `raise_on_register_fail` is true and otherwise returns None.
- Sleep and wait durations (`register_retry_delay`, `heartbeat_interval`, `heartbeat_retry_delay`, `unregister_timeout`): only sleeps are counted. The `None` defaults of `register_with_retry` are modelled by passing the configured retry count.
- Logging, `print` and traceback formatting.
- `_call_func` and the coroutine check (core.py:312-317, 365): the work is a pass/fail input.
- Decorator.Invoke: the work is a plain (non-async) function. For a coroutine function, `func(*args, **kwargs)` only creates the coroutine, so `__exit__` deregisters before the work's body runs, no heartbeat happens while it runs, and an error raised when the caller awaits it escapes the `except` at core.py:431, so permissive mode never turns it into `None`.
- Decorator.Invoke: `workFails` stands for the work raising an `Exception`, which core.py:431 catches; a `BaseException` such as `KeyboardInterrupt` or `SystemExit` propagates even in permissive mode and is not modelled.
- Address.ParsePort: reads only plain ASCII decimal digits. Python's `int()` also accepts a sign, surrounding whitespace, underscores and other Unicode digits, and the port is not range-checked there. Python's `int()` (3.11 and later, and security releases of 3.8-3.10) also refuses decimal strings longer than 4300 digits by default; the model reads numerals of any length.
- `src/nacosx/__init__.py`: re-exports only.

=== FILE: address.dfy ===
/**
 * Splitting a `host:port` service address the way `str.rsplit(':', 1)` does,
 * and reading the port as a plain decimal numeral.
 */
module Address {
  import opened Results

  predicate IsDigit(c: char)
  {
    '0' <= c <= '9'
  }

  /** A non-empty run of decimal digits. */
  predicate IsNumeral(s: string)
  {
    |s| > 0 && forall i :: 0 <= i < |s| ==> IsDigit(s[i])
  }

  /** The value of a string of digits, most significant first; leading zeros are allowed. */
  function DigitsValue(s: string): nat
    requires forall i :: 0 <= i < |s| ==> IsDigit(s[i])
    decreases |s|
  {
    if |s| == 0 then 0
    else DigitsValue(s[..|s| - 1]) * 10 + DigitValue(s[|s| - 1])
  }

  function DigitValue(c: char): (d: nat)
    requires IsDigit(c)
    ensures d < 10
  {
    (c - '0') as int
  }

  /** `int(port_str)`, restricted to plain decimal numerals. */
  function ParsePort(s: string): (r: Option<nat>)
    ensures r.Some? <==> IsNumeral(s)
  {
    if IsNumeral(s) then Some(DigitsValue(s)) else None
  }

  /** A leading zero does not change the value of a run of digits. */
  lemma {:induction false} LeadingZeroDigits(s: string)
    requires forall i :: 0 <= i < |s| ==> IsDigit(s[i])
    ensures DigitsValue("0" + s) == DigitsValue(s)
    decreases |s|
  {
    var z := "0" + s;
    if |s| == 0 {
      assert z[..|z| - 1] == [];
    } else {
      assert z[..|z| - 1] == "0" + s[..|s| - 1];
      LeadingZeroDigits(s[..|s| - 1]);
    }
  }

  /** Like `int()`, reading a numeral ignores leading zeros: `08080` reads as 8080. */
  lemma LeadingZeroIgnored(s: string)
    requires IsNumeral(s)
    ensures ParsePort("0" + s) == ParsePort(s)
  {
    assert IsNumeral("0" + s);
    LeadingZeroDigits(s);
  }

  /** The canonical decimal numeral of `n`, without leading zeros. */
  function Numeral(n: nat): (r: string)
    ensures IsNumeral(r)
    ensures n > 0 ==> r[0] != '0'
    decreases n
  {
    var d := ['0' + (n % 10) as char];
    if n < 10 then d else Numeral(n / 10) + d
  }

  /** Reading the numeral of `n` gives back `n`. */
  lemma {:induction false} NumeralRoundTrip(n: nat)
    ensures ParsePort(Numeral(n)) == Some(n)
    decreases n
  {
    var s := Numeral(n);
    assert DigitValue(s[|s| - 1]) == n % 10;
    if n >= 10 {
      NumeralRoundTrip(n / 10);
      assert s[..|s| - 1] == Numeral(n / 10);
    } else {
      assert s[..|s| - 1] == [];
      assert DigitsValue(s) == DigitsValue([]) * 10 + n % 10;
    }
  }

  /** A numeral whose value is 0 is all zeros. */
  lemma {:induction false} ZeroValueAllZeros(s: string)
    requires forall i :: 0 <= i < |s| ==> IsDigit(s[i])
    requires DigitsValue(s) == 0
    ensures forall i :: 0 <= i < |s| ==> s[i] == '0'
    decreases |s|
  {
    if |s| > 0 {
      var p := s[..|s| - 1];
      ZeroValueAllZeros(p);
      assert forall i :: 0 <= i < |p| ==> s[i] == p[i];
    }
  }

  /** A numeral without leading zeros is the canonical numeral of its value. */
  lemma {:induction false} CanonicalRoundTrip(s: string)
    requires IsNumeral(s) && (|s| == 1 || s[0] != '0')
    ensures Numeral(DigitsValue(s)) == s
    decreases |s|
  {
    var n := DigitsValue(s);
    var d := DigitValue(s[|s| - 1]);
    var p := s[..|s| - 1];
    if |s| == 1 {
      assert p == [];
      assert DigitsValue(p) == 0;
      assert n == d;
      assert ['0' + (n % 10) as char] == s;
    } else {
      assert p[0] == s[0];
      if DigitsValue(p) == 0 {
        ZeroValueAllZeros(p);
        assert false;
      }
      CanonicalRoundTrip(p);
      assert n / 10 == DigitsValue(p) && n % 10 == d;
      assert s == p + ['0' + (n % 10) as char];
    }
  }

  /** The index of the last `':'` in `s`, if any. */
  function LastColon(s: string): (r: Option<nat>)
    ensures r.None? <==> ':' !in s
    ensures r.Some? ==> r.value < |s| && s[r.value] == ':' && ':' !in s[r.value + 1..]
    decreases |s|
  {
    if |s| == 0 then None
    else if s[|s| - 1] == ':' then Some(|s| - 1)
    else
      var r := LastColon(s[..|s| - 1]);
      assert forall c :: c in s <==> c in s[..|s| - 1] || c == s[|s| - 1];
      if r.Some? then
        assert s[r.value + 1..] == s[..|s| - 1][r.value + 1..] + [s[|s| - 1]];
        r
      else r
  }

  /**
   * `s.rsplit(':', 1)` on a string that contains a colon: the part before the
   * last colon and the part after it.
   */
  function SplitLast(s: string): (r: Option<(string, string)>)
    ensures r.None? <==> ':' !in s
    ensures r.Some? ==> s == r.value.0 + ":" + r.value.1 && ':' !in r.value.1
  {
    match LastColon(s)
    case None => None
    case Some(i) =>
      assert s == s[..i] + ":" + s[i + 1..];
      Some((s[..i], s[i + 1..]))
  }

  /** Joining at a colon and splitting at the last colon are inverse when the right part has no colon. */
  lemma SplitJoin(host: string, tail: string)
    requires ':' !in tail
    ensures SplitLast(host + ":" + tail) == Some((host, tail))
  {
    var s := host + ":" + tail;
    assert s[|host|] == ':';
    var r := SplitLast(s);
    var i := LastColon(s).value;
    assert i == |host|;
    assert s[..i] == host;
    assert s[i + 1..] == tail;
  }
}

=== FILE: decorator.dfy ===
/**
 * The `nacos_registry` decorator's wrapper: configuration checks, address
 * parsing, and what one call of the wrapped function does to the registry
 * and to the caller.
 */
module Decorator {
  import opened Results
  import opened Registry
  import Address
  import Lifecycle

  /** Why a configuration was refused, in the order the checks run. */
  datatype ConfigError = NoNacosAddr | NoServiceName | BadServiceAddr | BadPort

  /** Where the instance is reachable, as parsed from `service_addr`. */
  datatype Endpoint = Endpoint(ip: string, port: nat)

  /**
   * The checks of the wrapper, first failure wins: `nacos_addr` empty, then
   * `service_name` empty, then `service_addr` without a colon, then a port
   * (the text after the last colon) that is not a numeral.
   */
  function Validate(nacosAddr: string, serviceName: string, serviceAddr: string): (r: Result<Endpoint, ConfigError>)
    ensures r == Err(NoNacosAddr) <==> nacosAddr == ""
    ensures r == Err(NoServiceName) <==> nacosAddr != "" && serviceName == ""
    ensures r == Err(BadServiceAddr) <==> nacosAddr != "" && serviceName != "" && ':' !in serviceAddr
    ensures r == Err(BadPort) <==>
      && nacosAddr != "" && serviceName != "" && ':' in serviceAddr
      && !Address.IsNumeral(Address.SplitLast(serviceAddr).value.1)
    ensures r.Ok? ==>
      var ip := r.value.ip;
      && |ip| < |serviceAddr|
      && serviceAddr[..|ip|] == ip
      && serviceAddr[|ip|] == ':'
      && ':' !in serviceAddr[|ip| + 1..]
      && Address.ParsePort(serviceAddr[|ip| + 1..]) == Some(r.value.port)
  {
    if nacosAddr == "" then Err(NoNacosAddr)
    else if serviceName == "" then Err(NoServiceName)
    else
      match Address.SplitLast(serviceAddr)
      case None => Err(BadServiceAddr)
      case Some((ip, portText)) =>
        match Address.ParsePort(portText)
        case None => Err(BadPort)
        case Some(port) =>
          assert serviceAddr == ip + ":" + portText;
          assert serviceAddr[|ip| + 1..] == portText;
          Ok(Endpoint(ip, port))
  }

  /**
   * Any host, even one holding colons, joined to the numeral of a port
   * validates to exactly that host and port.
   */
  lemma ValidateRoundTrip(nacosAddr: string, serviceName: string, ip: string, port: nat)
    requires nacosAddr != "" && serviceName != ""
    ensures Validate(nacosAddr, serviceName, ip + ":" + Address.Numeral(port)) == Ok(Endpoint(ip, port))
  {
    var numeral := Address.Numeral(port);
    assert ':' !in numeral;
    Address.SplitJoin(ip, numeral);
    Address.NumeralRoundTrip(port);
  }

  /** `10.0.0.1:8080` is accepted as ip `10.0.0.1`, port 8080. */
  lemma ValidateAcceptsExample()
    ensures Validate("nacos:8848", "orders", "10.0.0.1:8080") == Ok(Endpoint("10.0.0.1", 8080))
  {
    var port := "8080";
    assert Address.DigitsValue(port[..1]) == 8 by {
      assert port[..1][..0] == [];
    }
    assert Address.DigitsValue(port[..2]) == 80 by {
      assert port[..2][..1] == port[..1];
    }
    assert Address.DigitsValue(port[..3]) == 808 by {
      assert port[..3][..2] == port[..2];
    }
    assert Address.DigitsValue(port) == 8080 by {
      assert port[..3] == port[..|port| - 1];
    }
    assert "10.0.0.1:8080" == "10.0.0.1" + ":" + port;
    Address.SplitJoin("10.0.0.1", port);
  }

  /** `badaddr` has no colon and is refused as malformed. */
  lemma ValidateRejectsExample()
    ensures Validate("nacos:8848", "orders", "badaddr") == Err(BadServiceAddr)
  {
    assert ':' !in "badaddr";
  }

  /** The decorator's arguments that matter to the wrapper's decisions. */
  datatype Settings = Settings(
    enabled: bool,
    nacosAddr: string,
    serviceName: string,
    serviceAddr: string,
    cfg: Config,
    raiseOnFail: bool)

  /**
   * What the wrapper decides before running anything: run plainly when
   * disabled; on a failed check raise, or in permissive mode run plainly;
   * otherwise register at the parsed endpoint.
   */
  datatype Admission = Disabled | Rejected(error: ConfigError) | Skipped(error: ConfigError) | Admitted(at: Endpoint)

  function Admit(st: Settings): (r: Admission)
    ensures !st.enabled ==> r == Disabled
    ensures r.Rejected? ==> st.raiseOnFail && Validate(st.nacosAddr, st.serviceName, st.serviceAddr) == Err(r.error)
    ensures r.Skipped? ==> !st.raiseOnFail && Validate(st.nacosAddr, st.serviceName, st.serviceAddr) == Err(r.error)
    ensures st.enabled ==> (r.Admitted? <==> Validate(st.nacosAddr, st.serviceName, st.serviceAddr).Ok?)
    ensures r.Admitted? ==> Validate(st.nacosAddr, st.serviceName, st.serviceAddr) == Ok(r.at)
  {
    if !st.enabled then Disabled
    else
      match Validate(st.nacosAddr, st.serviceName, st.serviceAddr)
      case Err(e) => if st.raiseOnFail then Rejected(e) else Skipped(e)
      case Ok(at) => Admitted(at)
  }

  /** Why a call of the wrapper raised. */
  datatype Cause = Misconfigured(error: ConfigError) | WorkFailed

  /** How a call of the wrapper ends for its caller. */
  datatype Ending = Returned | ReturnedNone | Raised(cause: Cause)

  /**
   * The client's answers during one call: to `start`'s add attempts, to each
   * heartbeat iteration while the work runs, and to `stop`'s remove.
   */
  datatype Script = Script(adds: seq<bool>, beats: seq<Lifecycle.Beat>, removeOk: bool)

  /** What one call of the wrapper did: whether the work ran, how it ended, and the registry calls. */
  datatype Invocation = Invocation(workRan: bool, ending: Ending, calls: seq<Call>)

  /**
   * One call of the wrapped function. When admitted, it runs inside the
   * service's `with` block; an error from the work propagates after teardown
   * unless `raise_on_register_fail` is off, when it becomes a `None` result.
   * Outside the `with` block the work's error always propagates.
   */
  function Invoke(st: Settings, sc: Script, workFails: bool): (r: Invocation)
    ensures r.workRan <==> !Admit(st).Rejected?
    ensures !Admit(st).Admitted? ==> r.calls == []
    ensures Admit(st).Rejected? ==> r.ending == Raised(Misconfigured(Admit(st).error))
    ensures !Admit(st).Rejected? && !workFails ==> r.ending == Returned
    ensures !Admit(st).Admitted? && !Admit(st).Rejected? && workFails ==> r.ending == Raised(WorkFailed)
    ensures Admit(st).Admitted? && workFails ==> r.ending == (if st.raiseOnFail then Raised(WorkFailed) else ReturnedNone)
    ensures Admit(st).Admitted? ==> |r.calls| >= 1 && r.calls[|r.calls| - 1] == Call(RemoveInstance, sc.removeOk)
    ensures Admit(st).Admitted? && st.cfg.retries >= 1 ==> r.calls[0].op == AddInstance
    ensures !(Admit(st).Admitted? && Lifecycle.Registers(st.cfg, sc.adds)) ==> Lifecycle.NoHeartbeat(r.calls)
    ensures Admit(st).Admitted? && Lifecycle.Registers(st.cfg, sc.adds) && |sc.beats| > 0 ==>
      Lifecycle.HeartbeatLogged(r.calls, sc.beats[0].sent)
  {
    var admission := Admit(st);
    if admission.Rejected? then Invocation(false, Raised(Misconfigured(admission.error)), [])
    else if !admission.Admitted? then Invocation(true, if workFails then Raised(WorkFailed) else Returned, [])
    else
      var down := Lifecycle.Scoped(st.cfg, sc.adds, sc.beats, sc.removeOk);
      var ending := if !workFails then Returned else if st.raiseOnFail then Raised(WorkFailed) else ReturnedNone;
      Invocation(true, ending, down.session.calls)
  }
}

=== FILE: heartbeat.dfy ===
/**
 * `_heartbeat_loop`: one loop iteration is a step over explicit state, driven
 * by what happens at its two wait points (the interval wait and the retry
 * wait), by the heartbeat's outcome and by the self-healing outcomes.
 */
module Heartbeat {
  import opened Registry
  import Retry

  /** How a wait on the stop signal ended: the time ran out, or the signal was set. */
  datatype Wait = Elapsed | Signalled

  /**
   * Everything one iteration may observe, in order: the interval wait, the
   * heartbeat's outcome, the retry wait, the self-healing remove's outcome and
   * the answers to the self-healing add attempts. An iteration reads only the
   * fields its path reaches.
   */
  datatype Round = Round(interval: Wait, sent: bool, retryWait: Wait, healRemove: bool, healAdds: seq<bool>)

  /** The loop's state: the shared service state, `fail_count`, and whether the loop has returned. */
  datatype Loop = Loop(session: Session, failures: nat, exited: bool)

  /**
   * The reference meaning of `fail_count`: the number of failed heartbeats
   * since the last successful heartbeat or successful re-registration.
   */
  function Streak(calls: seq<Call>): nat
    decreases |calls|
  {
    if |calls| == 0 then 0
    else
      var last := calls[|calls| - 1];
      if last == Call(SendHeartbeat, true) || last == Call(AddInstance, true) then 0
      else if last == Call(SendHeartbeat, false) then Streak(calls[..|calls| - 1]) + 1
      else Streak(calls[..|calls| - 1])
  }

  /** Some remove call was appended between the two logs. */
  ghost predicate RemoveIssued(before: seq<Call>, after: seq<Call>)
  {
    exists j :: |before| <= j < |after| && after[j].op == RemoveInstance
  }

  /**
   * Whether this round sees the stop signal and returns: at the interval
   * wait, or, for an ephemeral instance whose heartbeat failed, at the retry
   * wait.
   */
  predicate SignalSeen(cfg: Config, l: Loop, e: Round)
  {
    e.interval == Signalled || (cfg.ephemeral && !(l.session.client && e.sent) && e.retryWait == Signalled)
  }

  /** Whether a failed heartbeat in this round goes on to self-healing. */
  predicate HealsAfterFailure(cfg: Config, l: Loop, e: Round)
  {
    e.retryWait == Elapsed && l.failures + 1 >= cfg.maxFailures
  }

  /**
   * One pass of the `while` body. The self-healing remove calls the client
   * directly rather than through `_remove_once`, so it never clears the
   * `registered` cache.
   */
  function Iterate(cfg: Config, l: Loop, e: Round): (r: Loop)
    ensures l.exited ==> r == l
    ensures !l.exited && e.interval == Signalled ==> r.exited && r.session == l.session
    ensures !cfg.ephemeral && !l.exited ==> r.session == l.session && r.failures == l.failures
    ensures !l.exited ==> (r.exited <==> SignalSeen(cfg, l, e))
    ensures !l.exited && e.interval == Elapsed && SignalSeen(cfg, l, e) ==>
      && r.session.calls == l.session.calls + (if l.session.client then [Call(SendHeartbeat, false)] else [])
      && r.failures == l.failures + 1
    ensures !l.exited && e.interval == Elapsed && cfg.ephemeral && l.session.client ==>
      |r.session.calls| > |l.session.calls| && r.session.calls[|l.session.calls|] == Call(SendHeartbeat, e.sent)
    ensures !l.exited && e.interval == Elapsed && cfg.ephemeral && l.session.client && e.sent ==>
      r == Loop(l.session.(calls := l.session.calls + [Call(SendHeartbeat, true)]), 0, false)
    ensures !l.exited && e.interval == Elapsed && cfg.ephemeral && !(l.session.client && e.sent)
            && e.retryWait == Elapsed && l.failures + 1 < cfg.maxFailures ==>
      r == Loop(l.session.(calls := l.session.calls + (if l.session.client then [Call(SendHeartbeat, false)] else [])), l.failures + 1, false)
    ensures l.session.client ==> r.session.client && r.session.constructions == l.session.constructions
    ensures l.session.registered ==> r.session.registered
    ensures |l.session.calls| <= |r.session.calls| && r.session.calls[..|l.session.calls|] == l.session.calls
  {
    if l.exited then l
    else if e.interval == Signalled then l.(exited := true)
    else if !cfg.ephemeral then l
    else
      var beat := Request(l.session, SendHeartbeat, e.sent);
      if beat.ok then Loop(beat.after, 0, false)
      else
        var n := l.failures + 1;
        if e.retryWait == Signalled then Loop(beat.after, n, true)
        else if n < cfg.maxFailures then Loop(beat.after, n, false)
        else
          var removed := Request(beat.after, RemoveInstance, e.healRemove).after;
          var heal := Retry.RegisterWithRetry(removed, cfg.retries, e.healAdds);
          assert heal.after.calls[..|l.session.calls|] == l.session.calls by {
            assert heal.after.calls[..|removed.calls|][..|l.session.calls|] == heal.after.calls[..|l.session.calls|];
          }
          Loop(heal.after, if heal.ok then 0 else n, false)
  }

  /**
   * The `while` loop driven by a sequence of rounds until it returns or the
   * rounds run out. It never clears the `registered` cache and only ever
   * appends to the call log.
   */
  function Run(cfg: Config, l: Loop, rounds: seq<Round>): (r: Loop)
    decreases |rounds|
    ensures l.session.registered ==> r.session.registered
    ensures |l.session.calls| <= |r.session.calls| && r.session.calls[..|l.session.calls|] == l.session.calls
  {
    if |rounds| == 0 || l.exited then l
    else
      var m := Iterate(cfg, l, rounds[0]);
      var r := Run(cfg, m, rounds[1..]);
      assert r.session.calls[..|m.session.calls|][..|l.session.calls|] == r.session.calls[..|l.session.calls|];
      r
  }

  /** A run of add calls resets the streak exactly when one of them succeeded. */
  lemma {:induction false} StreakAfterLog(calls: seq<Call>, outs: seq<bool>, k: nat, n: nat)
    ensures Streak(calls + Retry.AddLog(outs, k, n)) == if Retry.AnySuccess(outs, k, n) then 0 else Streak(calls)
    decreases n
  {
    if n == 0 {
      assert calls + Retry.AddLog(outs, k, n) == calls;
    } else {
      var first := [Call(AddInstance, Outcome(outs, k))];
      assert Retry.AddLog(outs, k, n) == first + Retry.AddLog(outs, k + 1, n - 1);
      assert calls + (first + Retry.AddLog(outs, k + 1, n - 1)) == (calls + first) + Retry.AddLog(outs, k + 1, n - 1);
      StreakAfterLog(calls + first, outs, k + 1, n - 1);
      assert (calls + first)[..|calls + first| - 1] == calls;
      assert Streak(calls + first) == if Outcome(outs, k) then 0 else Streak(calls);
      assert Retry.AnySuccess(outs, k, n) == (Outcome(outs, k) || Retry.AnySuccess(outs, k + 1, n - 1));
    }
  }

  /** One iteration keeps `fail_count` equal to the length of the current run of failed heartbeats. */
  lemma IterateKeepsStreak(cfg: Config, l: Loop, e: Round)
    requires l.session.client && l.failures == Streak(l.session.calls)
    ensures Iterate(cfg, l, e).failures == Streak(Iterate(cfg, l, e).session.calls)
  {
    if !l.exited && e.interval == Elapsed && cfg.ephemeral {
      var beat := Request(l.session, SendHeartbeat, e.sent);
      assert beat.after.calls[..|beat.after.calls| - 1] == l.session.calls;
      if !e.sent && HealsAfterFailure(cfg, l, e) {
        var removed := Request(beat.after, RemoveInstance, e.healRemove).after;
        HealKeepsStreak(cfg, beat.after, removed, e.healRemove, e.healAdds);
      }
    }
  }

  /** The self-healing calls (a remove, then add attempts) reset the streak exactly when an add succeeds. */
  lemma HealKeepsStreak(cfg: Config, s: Session, removed: Session, ok: bool, adds: seq<bool>)
    requires s.client && removed == Request(s, RemoveInstance, ok).after
    ensures var heal := Retry.RegisterWithRetry(removed, cfg.retries, adds);
      Streak(heal.after.calls) == if heal.ok then 0 else Streak(s.calls)
  {
    var heal := Retry.RegisterWithRetry(removed, cfg.retries, adds);
    assert removed.calls[..|removed.calls| - 1] == s.calls;
    assert Streak(removed.calls) == Streak(s.calls);
    StreakAfterLog(removed.calls, adds, 0, heal.attempts);
  }

  /** Over any number of iterations, `fail_count` is the current run of failed heartbeats. */
  lemma {:induction false} RunKeepsStreak(cfg: Config, l: Loop, rounds: seq<Round>)
    requires l.session.client && l.failures == Streak(l.session.calls)
    ensures Run(cfg, l, rounds).session.client
    ensures Run(cfg, l, rounds).failures == Streak(Run(cfg, l, rounds).session.calls)
    decreases |rounds|
  {
    if |rounds| > 0 && !l.exited {
      IterateKeepsStreak(cfg, l, rounds[0]);
      RunKeepsStreak(cfg, Iterate(cfg, l, rounds[0]), rounds[1..]);
    }
  }

  /**
   * Self-healing (a remove call) happens in an iteration exactly when the
   * heartbeat failed, the retry wait timed out and the incremented counter
   * reached `heartbeat_max_failures`.
   */
  lemma HealIff(cfg: Config, l: Loop, e: Round)
    requires l.session.client
    ensures RemoveIssued(l.session.calls, Iterate(cfg, l, e).session.calls)
        <==> !l.exited && e.interval == Elapsed && cfg.ephemeral && !e.sent && HealsAfterFailure(cfg, l, e)
  {
    var r := Iterate(cfg, l, e);
    if !l.exited && e.interval == Elapsed && cfg.ephemeral {
      var beat := Request(l.session, SendHeartbeat, e.sent);
      if !e.sent && HealsAfterFailure(cfg, l, e) {
        var removed := Request(beat.after, RemoveInstance, e.healRemove).after;
        var heal := Retry.RegisterWithRetry(removed, cfg.retries, e.healAdds);
        assert heal.after.calls[..|removed.calls|][|l.session.calls| + 1] == removed.calls[|l.session.calls| + 1];
        assert r.session.calls[|l.session.calls| + 1].op == RemoveInstance;
      } else {
        assert r.session.calls == l.session.calls + [Call(SendHeartbeat, e.sent)];
      }
    } else {
      assert r.session.calls == l.session.calls;
    }
  }

  /**
   * The outcome of self-healing decides the counter: a successful
   * re-registration resets it to 0; a failed one leaves it at or above the
   * threshold, so the next failed heartbeat whose retry wait times out heals again.
   */
  lemma HealOutcome(cfg: Config, l: Loop, e: Round, next: Round)
    requires l.session.client && !l.exited && e.interval == Elapsed && cfg.ephemeral
    requires !e.sent && HealsAfterFailure(cfg, l, e)
    ensures var r := Iterate(cfg, l, e);
      && !r.exited
      && (r.failures == 0 <==> exists k :: 0 <= k < cfg.retries && Outcome(e.healAdds, k))
      && (r.failures != 0 ==> r.failures == l.failures + 1 >= cfg.maxFailures)
      && (r.failures != 0 && next.interval == Elapsed && !next.sent && next.retryWait == Elapsed ==>
            RemoveIssued(r.session.calls, Iterate(cfg, r, next).session.calls))
  {
    var r := Iterate(cfg, l, e);
    HealIff(cfg, r, next);
  }

  /** A permanent instance's loop never calls the client and never counts a failure. */
  lemma {:induction false} PermanentNeverBeats(cfg: Config, l: Loop, rounds: seq<Round>)
    requires !cfg.ephemeral
    ensures Run(cfg, l, rounds).session == l.session
    ensures Run(cfg, l, rounds).failures == l.failures
    decreases |rounds|
  {
    if |rounds| > 0 && !l.exited {
      PermanentNeverBeats(cfg, Iterate(cfg, l, rounds[0]), rounds[1..]);
    }
  }

  /** Running over two batches of rounds is running over their concatenation. */
  lemma {:induction false} RunAppend(cfg: Config, l: Loop, a: seq<Round>, b: seq<Round>)
    ensures Run(cfg, l, a + b) == Run(cfg, Run(cfg, l, a), b)
    decreases |a|
  {
    if |a| == 0 {
      assert a + b == b;
    } else if !l.exited {
      assert (a + b)[0] == a[0];
      assert (a + b)[1..] == a[1..] + b;
      RunAppend(cfg, Iterate(cfg, l, a[0]), a[1..], b);
    } else {
      assert Run(cfg, l, b) == l by {
        if |b| > 0 {}
      }
    }
  }

  /**
   * Once the stop signal is seen in round `i`, at the interval wait or at
   * the retry wait after a failed heartbeat, the loop has returned and the
   * rounds after `i` are never consumed.
   */
  lemma SignalEndsRun(cfg: Config, l: Loop, rounds: seq<Round>, i: nat)
    requires i < |rounds| && SignalSeen(cfg, Run(cfg, l, rounds[..i]), rounds[i])
    ensures Run(cfg, l, rounds[..i + 1]).exited
    ensures Run(cfg, l, rounds) == Run(cfg, l, rounds[..i + 1])
  {
    var a := rounds[..i];
    var mid := Run(cfg, l, a);
    assert rounds[..i + 1] == a + [rounds[i]];
    RunAppend(cfg, l, a, [rounds[i]]);
    assert Run(cfg, mid, [rounds[i]]).exited;
    assert rounds == rounds[..i + 1] + rounds[i + 1..];
    RunAppend(cfg, l, rounds[..i + 1], rounds[i + 1..]);
  }

  /**
   * Because the self-healing remove bypasses `_remove_once`, a successful
   * remove followed by a failed re-registration leaves the cache saying
   * "registered" while the log says the instance was removed.
   */
  lemma HealLeavesCacheStale(cfg: Config, l: Loop)
    requires l.session.client && l.session.registered && !l.exited && cfg.ephemeral
    requires l.failures + 1 >= cfg.maxFailures
    ensures var r := Iterate(cfg, l, Round(Elapsed, false, Elapsed, true, []));
      r.session.registered && !Membership(r.session.calls)
  {
    var beat := Request(l.session, SendHeartbeat, false);
    var removed := Request(beat.after, RemoveInstance, true).after;
    assert Membership(removed.calls) == false;
    var heal := Retry.RegisterWithRetry(removed, cfg.retries, []);
    assert !heal.ok;
    Retry.MembershipAfterLog(removed.calls, [], 0, heal.attempts);
  }

  /**
   * With a threshold of 2, two consecutive failed heartbeats (retry waits
   * timing out) lead to exactly one self-healing remove, issued right after
   * the second heartbeat and before any third one; the rest are add attempts.
   */
  lemma TwoFailuresHealOnce(cfg: Config, l: Loop, e1: Round, e2: Round)
    requires cfg.maxFailures == 2 && cfg.ephemeral
    requires l.session.client && !l.exited && l.failures == 0
    requires e1.interval == Elapsed && !e1.sent && e1.retryWait == Elapsed
    requires e2.interval == Elapsed && !e2.sent && e2.retryWait == Elapsed
    ensures var m := Iterate(cfg, l, e1);
      var r := Iterate(cfg, m, e2);
      var n := |l.session.calls|;
      && m.session.calls == l.session.calls + [Call(SendHeartbeat, false)]
      && m.failures == 1
      && |r.session.calls| >= n + 3
      && r.session.calls[..n + 3]
           == l.session.calls + [Call(SendHeartbeat, false), Call(SendHeartbeat, false), Call(RemoveInstance, e2.healRemove)]
      && forall j :: n + 3 <= j < |r.session.calls| ==> r.session.calls[j].op == AddInstance
  {
    var m := Iterate(cfg, l, e1);
    var beat := Request(m.session, SendHeartbeat, false);
    var removed := Request(beat.after, RemoveInstance, e2.healRemove).after;
    var heal := Retry.RegisterWithRetry(removed, cfg.retries, e2.healAdds);
    assert heal.after.calls[..|removed.calls|] == removed.calls;
  }

  /** One iteration never makes the cache claim membership without a successful add in the log. */
  lemma IterateKeepsEverAdded(cfg: Config, l: Loop, e: Round)
    requires l.session.registered ==> EverAdded(l.session.calls)
    ensures var r := Iterate(cfg, l, e);
      r.session.registered ==> EverAdded(r.session.calls)
  {
    var r := Iterate(cfg, l, e);
    if r.session.registered {
      if l.session.registered {
        assert r.session.calls == l.session.calls + r.session.calls[|l.session.calls|..];
        EverAddedGrows(l.session.calls, r.session.calls[|l.session.calls|..]);
      } else {
        var beat := Request(l.session, SendHeartbeat, e.sent);
        var removed := Request(beat.after, RemoveInstance, e.healRemove).after;
        var heal := Retry.RegisterWithRetry(removed, cfg.retries, e.healAdds);
        assert r.session == heal.after;
        assert heal.after.calls[|removed.calls| + heal.attempts - 1] == Call(AddInstance, true);
      }
    }
  }
}

=== FILE: lifecycle.dfy ===
/**
 * The `NacosService` controller: `start`, `stop`, the heartbeat thread as a
 * background step, and the `with` block's enter and exit.
 *
 * Threads are replaced by explicit steps: `Tick` runs one iteration of the
 * live heartbeat thread, and `Stop` sets the stop signal and joins the
 * thread, which then returns at its interval wait without another call.
 */
module Lifecycle {
  import opened Registry
  import Retry
  import Heartbeat

  /** The heartbeat thread behind the service's handle: its `fail_count` and whether it is alive. */
  datatype Worker = Worker(failures: nat, alive: bool)

  /**
   * One service instance. `stopSignal` is the heartbeat stop event, `strays`
   * counts heartbeat threads still running whose handle a later `start`
   * overwrote, and `hooked` says whether the shutdown signal handlers are installed.
   */
  datatype Service = Service(cfg: Config, session: Session, worker: Worker, stopSignal: bool, strays: nat, hooked: bool)

  /** The constructor: no client, not registered, no thread. */
  function New(cfg: Config): Service
  {
    Service(cfg, Fresh, Worker(0, false), false, 0, false)
  }

  /** The controller invariant. */
  ghost predicate Valid(svc: Service)
  {
    && BuiltOnce(svc.session)
    && (svc.session.registered ==> EverAdded(svc.session.calls))
    && (svc.worker.alive ==>
          && svc.cfg.ephemeral
          && svc.session.client
          && !svc.stopSignal
          && svc.worker.failures == Heartbeat.Streak(svc.session.calls))
    && (!svc.worker.alive ==> svc.strays == 0)
  }

  /**
   * `start`: build the client, register with the configured retries, and
   * only when that succeeded and the instance is ephemeral clear the stop
   * signal and spawn a heartbeat thread. A failed registration returns with
   * the cache and the threads as they were.
   */
  function Start(svc: Service, adds: seq<bool>): (r: Service)
    ensures r.cfg == svc.cfg && r.hooked == svc.hooked
    ensures r.session.client
    ensures var won := exists k :: 0 <= k < svc.cfg.retries && Outcome(adds, k);
      && (r.session.registered == (svc.session.registered || won))
      && (won && svc.cfg.ephemeral ==> r.worker == Worker(0, true) && !r.stopSignal)
      && (won && svc.cfg.ephemeral ==> r.strays == svc.strays + (if svc.worker.alive then 1 else 0))
      && (!(won && svc.cfg.ephemeral) ==> r.worker == svc.worker && r.strays == svc.strays && r.stopSignal == svc.stopSignal)
    ensures |svc.session.calls| <= |r.session.calls| <= |svc.session.calls| + (if svc.cfg.retries > 0 then svc.cfg.retries else 0)
    ensures r.session.calls[..|svc.session.calls|] == svc.session.calls
    ensures forall j :: |svc.session.calls| <= j < |r.session.calls| ==> r.session.calls[j].op == AddInstance
    ensures svc.cfg.retries >= 1 ==> |r.session.calls| > |svc.session.calls|
  {
    var reg := Retry.RegisterWithRetry(InitClient(svc.session), svc.cfg.retries, adds);
    var next := svc.(session := reg.after);
    if reg.ok && svc.cfg.ephemeral then
      next.(stopSignal := false, worker := Worker(0, true),
            strays := svc.strays + (if svc.worker.alive then 1 else 0))
    else next
  }

  /**
   * `stop`: if the thread is alive, set the stop signal and join it; then
   * exactly one `_remove_once`, whatever the cache says. Nothing escapes.
   */
  function Stop(svc: Service, removeOk: bool): (r: Service)
    ensures !r.worker.alive
    ensures r.strays == if svc.worker.alive then 0 else svc.strays
    ensures r.stopSignal == (svc.stopSignal || svc.worker.alive)
    ensures r.cfg == svc.cfg && r.hooked == svc.hooked
    ensures r.session.client == svc.session.client && r.session.constructions == svc.session.constructions
    ensures |r.session.calls| == |svc.session.calls| + (if svc.session.client then 1 else 0)
    ensures r.session.calls[..|svc.session.calls|] == svc.session.calls
    ensures svc.session.client ==> r.session.calls[|svc.session.calls|] == Call(RemoveInstance, removeOk)
    ensures r.session.registered == (svc.session.registered && !(svc.session.client && removeOk))
  {
    var joined :=
      if svc.worker.alive then svc.(stopSignal := true, worker := svc.worker.(alive := false), strays := 0)
      else svc;
    joined.(session := RemoveOnce(joined.session, removeOk).after)
  }

  /**
   * What the heartbeat thread sees in one iteration while the service runs:
   * the heartbeat's outcome and the self-healing outcomes.
   */
  datatype Beat = Beat(sent: bool, healRemove: bool, healAdds: seq<bool>)

  /**
   * One iteration of the live heartbeat thread. The signal is clear while the
   * thread lives, so both of its waits time out.
   */
  function Tick(svc: Service, b: Beat): (r: Service)
    ensures r.cfg == svc.cfg && r.worker.alive == svc.worker.alive && r.strays == svc.strays
    ensures r.stopSignal == svc.stopSignal && r.hooked == svc.hooked
    ensures !svc.worker.alive ==> r == svc
    ensures svc.session.client ==> r.session.client
    ensures svc.session.registered ==> r.session.registered
    ensures !svc.cfg.ephemeral ==> r.session == svc.session
    ensures |svc.session.calls| <= |r.session.calls| && r.session.calls[..|svc.session.calls|] == svc.session.calls
    ensures svc.worker.alive && svc.cfg.ephemeral && svc.session.client ==>
      |r.session.calls| > |svc.session.calls| && r.session.calls[|svc.session.calls|] == Call(SendHeartbeat, b.sent)
    ensures svc.worker.alive && svc.cfg.ephemeral && svc.session.client && b.sent ==>
      r.session.calls == svc.session.calls + [Call(SendHeartbeat, true)] && r.worker.failures == 0
    ensures svc.worker.alive && svc.cfg.ephemeral && svc.session.client && !b.sent && svc.worker.failures + 1 < svc.cfg.maxFailures ==>
      r.session.calls == svc.session.calls + [Call(SendHeartbeat, false)] && r.worker.failures == svc.worker.failures + 1
  {
    if !svc.worker.alive then svc
    else
      var e := Heartbeat.Round(Heartbeat.Elapsed, b.sent, Heartbeat.Elapsed, b.healRemove, b.healAdds);
      var l := Heartbeat.Iterate(svc.cfg, Heartbeat.Loop(svc.session, svc.worker.failures, false), e);
      svc.(session := l.session, worker := Worker(l.failures, true))
  }

  /** The heartbeat thread running through a sequence of iterations. */
  function Ticks(svc: Service, beats: seq<Beat>): (r: Service)
    decreases |beats|
    ensures r.cfg == svc.cfg && r.hooked == svc.hooked
    ensures r.worker.alive == svc.worker.alive && r.strays == svc.strays
    ensures svc.session.client ==> r.session.client
    ensures svc.session.registered ==> r.session.registered
    ensures !svc.cfg.ephemeral ==> r.session == svc.session
    ensures |svc.session.calls| <= |r.session.calls| && r.session.calls[..|svc.session.calls|] == svc.session.calls
    ensures !svc.worker.alive ==> r == svc
    ensures svc.worker.alive && svc.cfg.ephemeral && svc.session.client && |beats| > 0 ==>
      |r.session.calls| > |svc.session.calls| && r.session.calls[|svc.session.calls|] == Call(SendHeartbeat, beats[0].sent)
  {
    if |beats| == 0 then svc
    else
      var next := Tick(svc, beats[0]);
      var r := Ticks(next, beats[1..]);
      assert |next.session.calls| > |svc.session.calls| ==> r.session.calls[|svc.session.calls|] == next.session.calls[|svc.session.calls|] by {
        if |next.session.calls| > |svc.session.calls| {
          assert r.session.calls[..|next.session.calls|][|svc.session.calls|] == r.session.calls[|svc.session.calls|];
        }
      }
      r
  }

  /** `__enter__`: install the shutdown handlers, then `start`. */
  function Enter(svc: Service, adds: seq<bool>): (r: Service)
    ensures r.hooked && r.session.client
    ensures |svc.session.calls| <= |r.session.calls| && r.session.calls[..|svc.session.calls|] == svc.session.calls
    ensures forall j :: |svc.session.calls| <= j < |r.session.calls| ==> r.session.calls[j].op == AddInstance
    ensures svc.cfg.retries >= 1 ==> |r.session.calls| > |svc.session.calls|
    ensures r.worker.alive <==> svc.worker.alive || (svc.cfg.ephemeral && exists k :: 0 <= k < svc.cfg.retries && Outcome(adds, k))
  {
    Start(svc.(hooked := true), adds)
  }

  /** `__exit__`: `stop`, then restore the handlers, on every exit path. */
  function Exit(svc: Service, removeOk: bool): (r: Service)
    ensures !r.hooked && !r.worker.alive
    ensures svc.worker.alive ==> r.strays == 0
    ensures |r.session.calls| == |svc.session.calls| + (if svc.session.client then 1 else 0)
    ensures r.session.calls[..|svc.session.calls|] == svc.session.calls
    ensures svc.session.client ==> r.session.calls[|svc.session.calls|] == Call(RemoveInstance, removeOk)
  {
    Stop(svc, removeOk).(hooked := false)
  }

  /** `start` on a new service spawns the heartbeat thread: the instance is ephemeral and one of the add attempts succeeds. */
  predicate Registers(cfg: Config, adds: seq<bool>)
  {
    cfg.ephemeral && exists k :: 0 <= k < cfg.retries && Outcome(adds, k)
  }

  /** A heartbeat with answer `ok` appears in the log. */
  predicate HeartbeatLogged(calls: seq<Call>, ok: bool)
  {
    Call(SendHeartbeat, ok) in calls
  }

  /** No heartbeat call appears in the log. */
  ghost predicate NoHeartbeat(calls: seq<Call>)
  {
    forall j :: 0 <= j < |calls| ==> calls[j].op != SendHeartbeat
  }

  /** `__enter__` on a new service: only adds are logged, and the heartbeat thread lives iff `Registers`. */
  lemma EnterNew(cfg: Config, adds: seq<bool>)
    ensures var up := Enter(New(cfg), adds);
      && up.session.client && NoHeartbeat(up.session.calls)
      && (up.worker.alive <==> Registers(cfg, adds))
      && up.cfg == cfg
  {
    var up := Enter(New(cfg), adds);
    assert forall j :: 0 <= j < |up.session.calls| ==> up.session.calls[j].op == AddInstance;
  }

  /** Without a live heartbeat thread the block logs no heartbeat, whatever the thread would have seen. */
  lemma QuietWithoutThread(up: Service, beats: seq<Beat>, removeOk: bool)
    requires !up.worker.alive && NoHeartbeat(up.session.calls)
    ensures NoHeartbeat(Exit(Ticks(up, beats), removeOk).session.calls)
  {
    var r := Exit(up, removeOk);
    assert Ticks(up, beats) == up;
    assert r.session.calls == up.session.calls + [Call(RemoveInstance, removeOk)] || r.session.calls == up.session.calls;
  }

  /** With a live heartbeat thread, its first iteration's heartbeat survives into the log the block leaves. */
  lemma FirstBeatLogged(up: Service, beats: seq<Beat>, removeOk: bool)
    requires up.worker.alive && up.cfg.ephemeral && up.session.client && |beats| > 0
    ensures HeartbeatLogged(Exit(Ticks(up, beats), removeOk).session.calls, beats[0].sent)
  {
    var busy := Ticks(up, beats);
    var r := Exit(busy, removeOk);
    var i := |up.session.calls|;
    assert r.session.calls[..|busy.session.calls|][i] == r.session.calls[i];
  }

  /**
   * A `with NacosService(...)` block around some work on a new service:
   * enter, the heartbeat thread's iterations while the work runs, exit.
   */
  function Scoped(cfg: Config, adds: seq<bool>, beats: seq<Beat>, removeOk: bool): (r: Service)
    ensures !r.hooked && !r.worker.alive && r.strays == 0
    ensures |r.session.calls| >= 1 && r.session.calls[|r.session.calls| - 1] == Call(RemoveInstance, removeOk)
    ensures cfg.retries >= 1 ==> r.session.calls[0].op == AddInstance
    ensures !Registers(cfg, adds) ==> NoHeartbeat(r.session.calls)
    ensures Registers(cfg, adds) && |beats| > 0 ==> HeartbeatLogged(r.session.calls, beats[0].sent)
  {
    var up := Enter(New(cfg), adds);
    var busy := Ticks(up, beats);
    EnterNew(cfg, adds);
    if !up.worker.alive then
      QuietWithoutThread(up, beats, removeOk);
      Exit(busy, removeOk)
    else
      assert cfg.retries >= 1 ==> busy.session.calls[0] == up.session.calls[0];
      if |beats| > 0 then
        FirstBeatLogged(up, beats, removeOk);
        Exit(busy, removeOk)
      else
        Exit(busy, removeOk)
  }

  /** A newly constructed service satisfies the invariant. */
  lemma NewIsValid(cfg: Config)
    ensures Valid(New(cfg))
  {
  }

  /** `start` keeps the invariant; in particular a spawned thread starts with the streak at 0. */
  lemma StartKeepsValid(svc: Service, adds: seq<bool>)
    requires Valid(svc)
    ensures Valid(Start(svc, adds))
  {
    var s := InitClient(svc.session);
    var reg := Retry.RegisterWithRetry(s, svc.cfg.retries, adds);
    var r := Start(svc, adds);
    assert r.session == reg.after;
    if reg.ok {
      var last := |reg.after.calls| - 1;
      assert reg.after.calls[last] == Call(AddInstance, true);
      assert Heartbeat.Streak(reg.after.calls) == 0;
      assert EverAdded(reg.after.calls);
    } else {
      Heartbeat.StreakAfterLog(svc.session.calls, adds, 0, reg.attempts);
      if svc.session.registered {
        EverAddedGrows(svc.session.calls, Retry.AddLog(adds, 0, reg.attempts));
      }
    }
  }

  /** `stop` keeps the invariant. */
  lemma StopKeepsValid(svc: Service, removeOk: bool)
    requires Valid(svc)
    ensures Valid(Stop(svc, removeOk))
  {
    var r := Stop(svc, removeOk);
    if r.session.registered {
      assert r.session.calls == svc.session.calls + r.session.calls[|svc.session.calls|..];
      EverAddedGrows(svc.session.calls, r.session.calls[|svc.session.calls|..]);
    }
  }

  /** `__enter__` keeps the invariant: installing the handlers touches none of it, and `start` keeps it. */
  lemma EnterKeepsValid(svc: Service, adds: seq<bool>)
    requires Valid(svc)
    ensures Valid(Enter(svc, adds))
  {
    StartKeepsValid(svc.(hooked := true), adds);
  }

  /** `__exit__` keeps the invariant: `stop` keeps it, and restoring the handlers touches none of it. */
  lemma ExitKeepsValid(svc: Service, removeOk: bool)
    requires Valid(svc)
    ensures Valid(Exit(svc, removeOk))
  {
    StopKeepsValid(svc, removeOk);
  }

  /** One heartbeat iteration keeps the invariant. */
  lemma TickKeepsValid(svc: Service, b: Beat)
    requires Valid(svc)
    ensures Valid(Tick(svc, b))
  {
    if svc.worker.alive {
      var e := Heartbeat.Round(Heartbeat.Elapsed, b.sent, Heartbeat.Elapsed, b.healRemove, b.healAdds);
      var l := Heartbeat.Loop(svc.session, svc.worker.failures, false);
      Heartbeat.IterateKeepsStreak(svc.cfg, l, e);
      Heartbeat.IterateKeepsEverAdded(svc.cfg, l, e);
    }
  }

  /** Any number of heartbeat iterations keep the invariant. */
  lemma {:induction false} TicksKeepValid(svc: Service, beats: seq<Beat>)
    requires Valid(svc)
    ensures Valid(Ticks(svc, beats))
    decreases |beats|
  {
    if |beats| > 0 {
      TickKeepsValid(svc, beats[0]);
      TicksKeepValid(Tick(svc, beats[0]), beats[1..]);
    }
  }

  /**
   * With the default 3 retries and every add failing, `start` makes exactly three failed
   * add calls, stays unregistered and spawns no heartbeat thread.
   */
  lemma StartAllFail(cfg: Config, adds: seq<bool>)
    requires cfg.retries == DefaultRegisterRetries
    requires forall k :: 0 <= k < |adds| ==> !adds[k]
    ensures var r := Start(New(cfg), adds);
      && r.session.calls == [Call(AddInstance, false), Call(AddInstance, false), Call(AddInstance, false)]
      && !r.session.registered
      && !r.worker.alive
  {
    var reg := Retry.RegisterWithRetry(InitClient(Fresh), 3, adds);
    assert !Outcome(adds, 0) && !Outcome(adds, 1) && !Outcome(adds, 2);
    assert reg.attempts == 3;
  }

  /** Two `stop`s in a row issue two removes: `stop` does not consult the cache. */
  lemma StopTwiceRemovesTwice(svc: Service, ok1: bool, ok2: bool)
    requires svc.session.client
    ensures var r := Stop(Stop(svc, ok1), ok2);
      r.session.calls == svc.session.calls + [Call(RemoveInstance, ok1), Call(RemoveInstance, ok2)]
  {
    var r1 := Stop(svc, ok1);
    var r := Stop(r1, ok2);
    assert r1.session.calls == svc.session.calls + [Call(RemoveInstance, ok1)];
    assert r.session.calls == r1.session.calls + [Call(RemoveInstance, ok2)];
  }

  /** `stop` on a service that was never started reaches no registry and changes nothing else. */
  lemma StopBeforeStart(cfg: Config, removeOk: bool)
    ensures Stop(New(cfg), removeOk) == New(cfg)
  {
  }

  /**
   * A second successful `start` while the first heartbeat thread is alive
   * spawns another thread and leaves the first one running without a handle.
   */
  lemma RestartLeavesStray(svc: Service, adds: seq<bool>)
    requires Valid(svc) && svc.worker.alive && Outcome(adds, 0) && svc.cfg.retries >= 1
    ensures Start(svc, adds).strays == svc.strays + 1
    ensures Start(svc, adds).worker == Worker(0, true)
  {
  }
}

=== FILE: registry.dfy ===
/**
 * The registry-client side of one `NacosService`: the three client operations,
 * the log of calls that reached the client, the lazily built client handle and
 * the local `registered` cache.
 *
 * The client library itself is not modelled: every call is answered by an
 * outcome supplied by the caller of the model (`true` = the call returned,
 * `false` = it raised). A script of answers is a `seq<bool>` read in order.
 */
module Registry {

  /** The client operations the service issues. */
  datatype Op = AddInstance | RemoveInstance | SendHeartbeat

  /** One invocation that reached the client, with whether it succeeded. */
  datatype Call = Call(op: Op, ok: bool)

  /** The policy knobs that decide behaviour (durations are left out). */
  datatype Config = Config(retries: int, maxFailures: int, ephemeral: bool)

  /** `register_retries` when the caller does not override it. */
  const DefaultRegisterRetries: int := 3

  /**
   * Client-facing state of one service instance.
   * `client` says whether the client handle exists, `constructions` counts how
   * often one was built, `registered` is the local membership cache and
   * `calls` is every call that reached the client, oldest first.
   */
  datatype Session = Session(client: bool, constructions: nat, registered: bool, calls: seq<Call>)

  /** A service instance as its constructor leaves it. */
  const Fresh: Session := Session(false, 0, false, [])

  /** The outcome of one attempted operation and the state after it. */
  datatype Attempt = Attempt(ok: bool, after: Session)

  /** The answer to the `i`-th call of a script; a script that has run out answers with a failure. */
  function Outcome(outs: seq<bool>, i: int): bool
  {
    0 <= i < |outs| && outs[i]
  }

  /** The client handle has been built at most once, and exactly when it exists. */
  ghost predicate BuiltOnce(s: Session)
  {
    s.constructions == if s.client then 1 else 0
  }

  /** Some call in the log added the instance successfully. */
  ghost predicate EverAdded(calls: seq<Call>)
  {
    exists i :: 0 <= i < |calls| && calls[i] == Call(AddInstance, true)
  }

  /**
   * Registry membership implied by the log: the effect of the last successful
   * add or remove, `false` when there is none. Heartbeats do not change it.
   */
  function Membership(calls: seq<Call>): bool
    decreases |calls|
  {
    if |calls| == 0 then false
    else
      var last := calls[|calls| - 1];
      if last == Call(AddInstance, true) then true
      else if last == Call(RemoveInstance, true) then false
      else Membership(calls[..|calls| - 1])
  }

  /** The local cache agrees with what the log says about membership. */
  ghost predicate InSync(s: Session)
  {
    s.registered == Membership(s.calls)
  }

  /**
   * Lazy client construction: a handle is built only when none exists, and an
   * existing handle is reused. (The import-failure branch cannot be reached
   * and is not modelled.)
   */
  function InitClient(s: Session): (r: Session)
    ensures r.client
    ensures BuiltOnce(s) ==> BuiltOnce(r)
    ensures s.client ==> r == s
    ensures r.registered == s.registered && r.calls == s.calls
  {
    if s.client then s else s.(client := true, constructions := s.constructions + 1)
  }

  /** Building the client twice is the same as building it once. */
  lemma InitClientIdempotent(s: Session)
    ensures InitClient(InitClient(s)) == InitClient(s)
  {
  }

  /**
   * One client call inside the source's `try`: with no handle the attribute
   * lookup raises, so the call fails without reaching the registry.
   */
  function Request(s: Session, op: Op, ok: bool): (r: Attempt)
    ensures r.ok <==> s.client && ok
    ensures r.after.client == s.client && r.after.constructions == s.constructions
    ensures r.after.registered == s.registered
    ensures s.client ==> r.after.calls == s.calls + [Call(op, ok)]
    ensures !s.client ==> r.after.calls == s.calls
  {
    if s.client then Attempt(ok, s.(calls := s.calls + [Call(op, ok)])) else Attempt(false, s)
  }

  /**
   * `_register_once`: one add call; only a successful add sets the cache,
   * and a failure is returned, never raised.
   */
  function RegisterOnce(s: Session, ok: bool): (r: Attempt)
    ensures r.ok <==> s.client && ok
    ensures r.after.registered == (s.registered || r.ok)
    ensures r.after.client == s.client && r.after.constructions == s.constructions
    ensures |r.after.calls| == |s.calls| + (if s.client then 1 else 0)
    ensures r.after.calls[..|s.calls|] == s.calls
    ensures s.client ==> r.after.calls[|s.calls|] == Call(AddInstance, ok)
    ensures InSync(s) ==> InSync(r.after)
  {
    var a := Request(s, AddInstance, ok);
    if a.ok then a.(after := a.after.(registered := true)) else a
  }

  /**
   * `_remove_once`: one remove call; only a successful remove clears the
   * cache, and a failure is returned, never raised.
   */
  function RemoveOnce(s: Session, ok: bool): (r: Attempt)
    ensures r.ok <==> s.client && ok
    ensures r.after.registered == (s.registered && !r.ok)
    ensures r.after.client == s.client && r.after.constructions == s.constructions
    ensures |r.after.calls| == |s.calls| + (if s.client then 1 else 0)
    ensures r.after.calls[..|s.calls|] == s.calls
    ensures s.client ==> r.after.calls[|s.calls|] == Call(RemoveInstance, ok)
    ensures InSync(s) ==> InSync(r.after)
  {
    var a := Request(s, RemoveInstance, ok);
    if a.ok then a.(after := a.after.(registered := false)) else a
  }

  /** Appending calls never loses a successful add that was already in the log. */
  lemma EverAddedGrows(calls: seq<Call>, more: seq<Call>)
    requires EverAdded(calls)
    ensures EverAdded(calls + more)
  {
    var i :| 0 <= i < |calls| && calls[i] == Call(AddInstance, true);
    assert (calls + more)[i] == calls[i];
  }
}

=== FILE: results.dfy ===
/** Failure-carrying values used across the model. */
module Results {

  /** A value that may be absent. */
  datatype Option<+T> = None | Some(value: T)

  /** Either a value or the reason there is none. */
  datatype Result<+T, +E> = Ok(value: T) | Err(error: E)
}

=== FILE: retry.dfy ===
/**
 * `register_with_retry`: up to `retries` add attempts with one sleep between
 * consecutive attempts and none after the last, stopping at the first success.
 */
module Retry {
  import opened Registry

  /**
   * What a retry run reports: whether it ended registered, how many add
   * attempts it made, how many times it slept, and the state it leaves.
   */
  datatype Registration = Registration(ok: bool, attempts: nat, sleeps: nat, after: Session)

  /** The add calls of `n` attempts answered by the script from position `k` on. */
  function AddLog(outs: seq<bool>, k: nat, n: nat): (r: seq<Call>)
    decreases n
    ensures |r| == n
  {
    if n == 0 then [] else [Call(AddInstance, Outcome(outs, k))] + AddLog(outs, k + 1, n - 1)
  }

  /** Entry `j` of the log is the add answered by position `k + j` of the script. */
  lemma {:induction false} AddLogEntries(outs: seq<bool>, k: nat, n: nat)
    ensures forall j :: 0 <= j < n ==> AddLog(outs, k, n)[j] == Call(AddInstance, Outcome(outs, k + j))
    decreases n
  {
    if n > 0 {
      AddLogEntries(outs, k + 1, n - 1);
      var log := AddLog(outs, k, n);
      assert forall j :: 1 <= j < n ==> log[j] == AddLog(outs, k + 1, n - 1)[j - 1];
    }
  }

  /** Some answer at positions `k` to `k + n - 1` of the script is a success. */
  predicate AnySuccess(outs: seq<bool>, k: nat, n: nat)
  {
    exists j :: k <= j < k + n && Outcome(outs, j)
  }

  /**
   * The loop `for attempt in range(1, retries + 1)` from attempt `k + 1` on;
   * attempt `k + 1` is answered by `Outcome(outs, k)`.
   */
  function Attempts(s: Session, retries: int, k: nat, outs: seq<bool>): (r: Registration)
    requires s.client
    decreases retries - k
    ensures r.after.client && r.after.constructions == s.constructions
    ensures !r.ok ==> r.attempts == (if k < retries then retries - k else 0)
    ensures r.ok ==> 1 <= r.attempts <= retries - k && Outcome(outs, k + r.attempts - 1)
    ensures !AnySuccess(outs, k, if r.ok then r.attempts - 1 else r.attempts)
    ensures r.sleeps == (if r.attempts == 0 then 0 else r.attempts - 1)
    ensures r.after.registered == (s.registered || r.ok)
    ensures r.after.calls == s.calls + AddLog(outs, k, r.attempts)
  {
    if retries <= k then Registration(false, 0, 0, s)
    else
      var a := RegisterOnce(s, Outcome(outs, k));
      if a.ok then Registration(true, 1, 0, a.after)
      else if k + 1 < retries then
        var rest := Attempts(a.after, retries, k + 1, outs);
        Registration(rest.ok, rest.attempts + 1, rest.sleeps + 1, rest.after)
      else Registration(false, 1, 0, a.after)
  }

  /**
   * `register_with_retry(retries)`: builds the client if needed, then retries.
   * It succeeds exactly when one of the first `retries` answers is a success;
   * it then stops at the first one, and otherwise uses up every attempt.
   */
  function RegisterWithRetry(s: Session, retries: int, outs: seq<bool>): (r: Registration)
    ensures r.after.client
    ensures BuiltOnce(s) ==> BuiltOnce(r.after)
    ensures r.ok <==> exists k :: 0 <= k < retries && Outcome(outs, k)
    ensures r.ok ==> 1 <= r.attempts <= retries && Outcome(outs, r.attempts - 1)
    ensures forall j :: 0 <= j < r.attempts - 1 ==> !Outcome(outs, j)
    ensures !r.ok ==> r.attempts == (if retries > 0 then retries else 0)
    ensures r.sleeps == (if r.attempts == 0 then 0 else r.attempts - 1)
    ensures r.after.registered == (s.registered || r.ok)
    ensures r.after.calls == s.calls + AddLog(outs, 0, r.attempts)
    ensures r.ok <==> AnySuccess(outs, 0, r.attempts)
    ensures forall j :: |s.calls| <= j < |r.after.calls| ==> r.after.calls[j] == Call(AddInstance, Outcome(outs, j - |s.calls|))
  {
    var r := Attempts(InitClient(s), retries, 0, outs);
    AddLogEntries(outs, 0, r.attempts);
    assert r.ok ==> Outcome(outs, r.attempts - 1);
    r
  }

  /** After a run of add calls the log implies membership exactly when one of them succeeded. */
  lemma {:induction false} MembershipAfterLog(calls: seq<Call>, outs: seq<bool>, k: nat, n: nat)
    ensures Membership(calls + AddLog(outs, k, n)) == (AnySuccess(outs, k, n) || Membership(calls))
    decreases n
  {
    if n == 0 {
      assert calls + AddLog(outs, k, n) == calls;
    } else {
      var first := [Call(AddInstance, Outcome(outs, k))];
      assert AddLog(outs, k, n) == first + AddLog(outs, k + 1, n - 1);
      assert calls + (first + AddLog(outs, k + 1, n - 1)) == (calls + first) + AddLog(outs, k + 1, n - 1);
      MembershipAfterLog(calls + first, outs, k + 1, n - 1);
      assert (calls + first)[..|calls + first| - 1] == calls;
      assert Membership(calls + first) == (Outcome(outs, k) || Membership(calls));
      assert AnySuccess(outs, k, n) == (Outcome(outs, k) || AnySuccess(outs, k + 1, n - 1));
    }
  }

  /** A retry run keeps the `registered` cache in step with the log. */
  lemma RegisterKeepsInSync(s: Session, retries: int, outs: seq<bool>)
    requires InSync(s)
    ensures InSync(RegisterWithRetry(s, retries, outs).after)
  {
    var r := RegisterWithRetry(s, retries, outs);
    MembershipAfterLog(s.calls, outs, 0, r.attempts);
  }

  /** When the first success is attempt `k + 1`, exactly `k + 1` attempts and `k` sleeps happen. */
  lemma FirstSuccessDecides(s: Session, retries: int, outs: seq<bool>, k: nat)
    requires k < retries && Outcome(outs, k)
    requires forall j :: 0 <= j < k ==> !Outcome(outs, j)
    ensures RegisterWithRetry(s, retries, outs).ok
    ensures RegisterWithRetry(s, retries, outs).attempts == k + 1
    ensures RegisterWithRetry(s, retries, outs).sleeps == k
  {
  }

  /** A non-positive retry count makes no attempt and reports failure. */
  lemma NoRetriesNoAttempt(s: Session, retries: int, outs: seq<bool>)
    requires retries <= 0
    ensures !RegisterWithRetry(s, retries, outs).ok
    ensures RegisterWithRetry(s, retries, outs).attempts == 0
    ensures RegisterWithRetry(s, retries, outs).after.calls == s.calls
  {
  }
}
